=== FILE: README.md ===
# Round-robin Gemini API proxy — Dafny model

`gemini-proxy.py` is a small reverse HTTP proxy. It loads a list of upstream
endpoints (`api_configs`, each with a `name`, `base_url` and `api_key`),
refuses to start when that list is missing or empty, and forwards every
`GET` and `POST` to the next endpoint in round-robin order. Each forwarded
request goes to `base_url + path`, with `Host` rewritten to the target's
authority and `x-goog-api-key` set to the endpoint's key. The upstream
answer is relayed back: a normal reply without its `Transfer-Encoding` and
`Content-Encoding` headers, an `HTTPError` reply with all of its headers,
and any other failure as a 502 error page reading `Proxy Error: ...`, as
long as that message can be written into the Latin-1 status line.

This project models that per-request decision logic as pure Dafny:

- `Wrappers` — `Option` and `Result`.
- `Text` — ASCII lower-casing of header names and the `int(...)` parse of `Content-Length`.
- `RoundRobin` — the `itertools.cycle(range(n))` cursor as a state machine; bounds and fair cycling.
- `Endpoints` — loading the endpoint list and selecting the next endpoint.
- `Url` — the target URL, its authority (the `netloc` that `urlparse` returns), and whether `urllib.request.Request` finds a URL type.
- `Outbound` — header override, body reading, and the whole outbound request with the reasons it can fail.
- `Relay` — the response-header filter and the mapping from upstream outcome to client response.
- `Proxy` — one request end to end, and a run of requests against one selector.

The lock around `next(api_counter)` makes one selection atomic, so the cursor
is a value that each selection replaces. The network call is a parameter:
`Proxy.Upstream` maps each outbound request to an `UpstreamOutcome`. The
inbound body stream is a byte sequence inside the request.

The model follows the code as written, including where a reader might expect otherwise:

- An `HTTPError` reply keeps every header, including `Transfer-Encoding` and `Content-Encoding` (gemini-proxy.py:105-106). `Relay.ReplyAndErrorAgree` shows that the two reply paths differ in exactly this.
- Loading only checks that the list is non-empty. An entry without `base_url` or `api_key` fails later, when a request is routed to it. The `KeyError` is raised outside the `try`, so that client gets no response (`Outbound.Abort`, `Proxy.Handled.Dropped`).
- Only `POST` reads a body. A `Content-Length` that `int` rejects raises `ValueError` outside the `try`, and the client gets no response. `rfile.read` reads to end of stream for a length of -1. It raises for a length of -2 or below (`ValueError`), for one beyond the largest index-sized integer (`OverflowError`), and for one it cannot allocate (`MemoryError`). In each case the client gets no response. `int` itself refuses a decimal string of more than 4300 digits.
- A target URL with no type makes `urllib.request.Request` raise `ValueError` before the `try`. The client gets no response in that case too.
- The 502 message becomes the reason phrase of the status line. `send_response` encodes that line as Latin-1 with strict error handling. An exception whose text holds a character beyond U+00FF therefore makes `send_error` raise inside the `except` block, and the client gets no response (`Proxy.Handled.Unanswered`). The relayed paths cannot fail this way, because http.client decodes upstream header lines as Latin-1.

## Model

| member | source | states |
|---|---|---|
| Endpoints.Load | gemini-proxy.py:23-27 | a selector exists exactly when `api_configs` is present and non-empty; it holds that list and starts at index 0 |
| RoundRobin.Next | gemini-proxy.py:43-44 | a selection hands out the cursor's current index, which is inside the pool, and leaves the cursor valid, one place further round modulo the pool size |
| RoundRobin.AdvancePosition | gemini-proxy.py:43-44 | after k selections the cursor is k places further round the pool, modulo its size |
| RoundRobin.KthSelection | gemini-proxy.py:39-45 | from a fresh cursor the k-th selection (counting from 0) is `k mod n`, always a valid index |
| RoundRobin.OneCycle | gemini-proxy.py:27 | one full cycle from a fresh cursor hands out `0, 1, ..., n-1` in order and returns to the start |
| RoundRobin.FairCycling | gemini-proxy.py:43-45 | `m*n` selections from a fresh cursor hand out every index exactly `m` times and nothing else |
| RoundRobin.SelectionLog | gemini-proxy.py:39-45 | a loop of k sequential selections logs the indices `i mod n`, the same sequence the cursor model defines |
| Endpoints.Select | gemini-proxy.py:39-45 | the endpoint returned is the one at the cursor; the pool is unchanged and the cursor moves one step |
| Endpoints.LoadedSelectionCycles | gemini-proxy.py:27-45 | from a freshly loaded pool of n endpoints the i-th selection returns the endpoint at index `i mod n` |
| Url.TargetUrl | gemini-proxy.py:62 | the target URL has the base URL as prefix and the request path as suffix, nothing in between |
| Url.SchemeColon | gemini-proxy.py:68 | a scheme is recognised at the first colon exactly when the URL starts with an ASCII letter and every character before that colon is a scheme character |
| Url.Authority | gemini-proxy.py:68 | the `Host` value is the text after `//` up to the first `/`, `?` or `#` (or the end), and is empty when the URL has no `//` authority part |
| Url.TargetKeepsAuthority | gemini-proxy.py:62-68 | appending a path that starts at a delimiter leaves an absolute base URL's authority unchanged |
| Url.HasUrlType | gemini-proxy.py:80-85 | `Request` finds a URL type exactly when some colon past position 0 has no colon and no `/` before it |
| Url.TargetKeepsUrlType | gemini-proxy.py:80-85 | appending an origin-form path neither creates nor removes the URL type that `Request` requires |
| Text.ParseInt | gemini-proxy.py:76 | `int` accepts exactly an optional sign and one to 4300 digits; a leading minus gives a non-positive value |
| Text.ParseNatToString | gemini-proxy.py:76 | parsing the decimal spelling of n (at most 4300 digits), bare or signed, gives back n or -n |
| Text.Lower | gemini-proxy.py:95 | lower-casing keeps the length, maps each character by itself and leaves no upper-case ASCII letter |
| Text.LowerMatchesIgnoringCase | gemini-proxy.py:95 | comparing a lower-cased name with a lower-case literal is case-insensitive equality, in both directions |
| Text.DigitsValueLeadingZero | gemini-proxy.py:76 | a zero in front of a run of digits leaves its value unchanged |
| Text.LeadingZeroIgnored | gemini-proxy.py:76 | `int` reads a decimal with one more leading zero as the same number, while within the 4300-digit limit |
| Outbound.OverrideHeaders | gemini-proxy.py:65-71 | outbound headers are the inbound ones plus `Host` and `x-goog-api-key`, each set to the proxy's value; every other key keeps its value |
| Outbound.ReadStream | gemini-proxy.py:77 | the body read is a prefix of the stream, of length min(n, available), and the whole stream when n is -1 |
| Outbound.ReadBody | gemini-proxy.py:74-77 | a `GET` sends no body; a `POST` sends a prefix of the stream: min(n, available) bytes for a parsed length n >= 0, none without `Content-Length`, all of it for -1; it fails when `Content-Length` does not parse or is outside the sizes `read` accepts |
| Outbound.BodyFollowsContentLength | gemini-proxy.py:74-77 | a `POST` with `Content-Length: n` and n bytes available sends exactly the first n bytes |
| Outbound.NegativeLengthIsRefused | gemini-proxy.py:76-77 | a `Content-Length` of -2 or below never gets forwarded: `read` refuses it, or `int` already does when it has too many digits |
| Outbound.Build | gemini-proxy.py:62-85 | the request is built exactly when both keys exist, the body can be read and the URL has a type; it then keeps the method, targets `base_url + path`, carries the endpoint's key and target authority, and leaves other headers alone |
| Relay.RelayHeaders | gemini-proxy.py:94-96 | a header is relayed iff upstream sent it and its name is not an encoding header; nothing is lost iff there was no encoding header |
| Relay.IsEncodingHeader | gemini-proxy.py:95 | a header is dropped exactly when its name equals `transfer-encoding` or `content-encoding` ignoring ASCII case |
| Relay.RelayHeadersCount | gemini-proxy.py:94-96 | each relayed header occurs as many times as upstream sent it; encoding headers occur zero times |
| Relay.RelayHeadersAppend | gemini-proxy.py:94-96 | filtering distributes over concatenation, so kept headers stay in their upstream order |
| Relay.RelayHeadersIdempotent | gemini-proxy.py:94-96 | filtering an already filtered list changes nothing |
| Relay.SendHeaders | gemini-proxy.py:94-97 | the header loop sends exactly the filtered list, in order |
| Relay.Respond | gemini-proxy.py:89-111 | replies keep status and body; a normal reply's relayed headers are exactly its filtered headers, in order; an `HTTPError` keeps all headers; any other failure gives 502 with `Proxy Error: ` then the description, and gives no response at all exactly when that description has a character outside Latin-1 |
| Relay.ReplyAndErrorAgree | gemini-proxy.py:94-106 | the same status, headers and body give the same client response on both reply paths iff no header is an encoding header |
| Relay.ChunkedReplyExample | gemini-proxy.py:94-106 | of a chunked reply's headers, the handler relays only `Content-Type` on the normal path, and both on the `HTTPError` path |
| Proxy.ForwardTo | gemini-proxy.py:62-111 | a request is dropped before reaching the upstream exactly when a key is missing, the body cannot be read or `base_url + path` has no type; a missing key names itself as the reason; otherwise the upstream is asked once, for the client's method, `base_url + path`, the client's headers with `Host` and the key overridden, and the body `Content-Length` selects; the client gets the relay of that answer, or nothing when it is a failure whose description is not Latin-1 |
| Proxy.UnansweredExactly | gemini-proxy.py:80-111 | a request that reaches the upstream goes unanswered iff the upstream fails with a description outside Latin-1, and otherwise the client gets the relayed answer |
| Proxy.Handle | gemini-proxy.py:53-111 | handling a request moves the cursor exactly one step, whatever becomes of the request, and forwards to the endpoint the cursor pointed at |
| Proxy.Serve | gemini-proxy.py:39-58 | a run of requests gives one result per request and moves the cursor one step per request, over the same pool |
| Proxy.ServeIsRoundRobin | gemini-proxy.py:39-58 | from a freshly loaded pool of n endpoints the i-th request is forwarded to endpoint `i mod n`, whatever became of earlier requests |
| Proxy.GetReachesUpstream | gemini-proxy.py:62-108 | a `GET` on any path to an endpoint with both keys and a typed base URL always reaches upstream with the endpoint's key and no body, and an `HTTPError` reply reaches the client unchanged |

## Left out

- Sockets, `serve_forever`, `run` and the `do_GET`/`do_POST` dispatch (gemini-proxy.py:113-132): server plumbing. The model starts from a request that is already parsed.
- `urllib.request.urlopen`, redirects, and reading the upstream body: the upstream outcome is an input (`Proxy.Upstream`). Which statuses become `HTTPError` is decided by urllib, so the model does not constrain it.
- Reading `config.json`, JSON decoding, and the exits for a missing file or bad JSON: this is I/O. Only the non-empty requirement is kept. Entries that are not objects, and values that are not strings, are not modelled.
- `threading.Lock`: each selection is one atomic step. The guarantees for concurrent callers are the sequential ones, taken in lock-acquisition order.
- The `print` of the chosen endpoint's name and its `Unnamed` default (gemini-proxy.py:59): logging only. `Endpoint.name` is kept but unused.
- Headers are an exact-key map. The model leaves out the case-insensitive lookup of `self.headers`, merging of repeated headers by `dict(...)`, and urllib's capitalisation of header names. The `Content-Length` lookup is exact-key too.
- 32-bit builds of Python: the largest read size modelled is the 64-bit `Py_ssize_t` maximum.
- Outbound.ReadStream: does not model the `MemoryError` that `rfile.read(n)` raises when it cannot allocate its n-byte buffer, for example `Content-Length: 1000000000000000`. Available memory belongs to the machine, not to the program, so the model forwards such a request.
- The `Content-Type` and `Content-Length` headers that urllib adds to a request that carries data.
- Text.ParseInt: rejects surrounding whitespace, `_` digit separators and non-ASCII digits, all of which Python's `int` accepts.
- Text.Lower: lower-cases ASCII letters only. For the two names compared this is the same as `str.lower`, because http.client decodes header names as Latin-1, and no non-ASCII Latin-1 letter lower-cases to an ASCII one.
- Url.Authority: leaves out urlsplit's stripping of leading control characters and spaces, and its removal of tab and newline characters. It also leaves out the `ValueError`s urlsplit raises for unbalanced IPv6 brackets, for an invalid bracketed host (`_check_bracketed_netloc`) and for a non-ASCII netloc that NFKC normalisation changes (`_checknetloc`).
- Url.HasUrlType: leaves out the whitespace and `<URL:...>` unwrapping, and the removal of the `#` fragment, that `Request` does before it looks for the type.
- The `Server` and `Date` headers that `send_response` writes before the relayed ones (gemini-proxy.py:91 and :104). `ClientResponse` holds only what the handler relays, and the client receives those two headers first.
- Relay.Respond: treats every request as HTTP/1.0 or later. For an HTTP/0.9 `GET`, `send_response` writes no status line, so a message outside Latin-1 does not raise and the error page is still sent.
- The HTML body and extra headers that `send_error` writes. A 502 is modelled by its code and message only.
- An exception raised while a successful reply is being relayed: after the status line is sent, it reaches the generic handler, which starts an error page. This is stream I/O.
- Upstream timeouts: the source sets none.

=== FILE: endpoints.dfy ===
/**
 * The endpoint pool: loading the configured list (refusing an empty or
 * missing one) and handing out endpoints in round-robin order.
 */
module Endpoints {
  import opened Wrappers
  import RoundRobin

  /**
   * One entry of `api_configs`. Each field is the value under its key, or
   * `None` when the entry lacks that key: loading checks none of them.
   */
  datatype Endpoint = Endpoint(name: Option<string>, baseUrl: Option<string>, apiKey: Option<string>)

  /** The pool together with its shared rotation cursor. */
  datatype Selector = Selector(pool: seq<Endpoint>, cursor: RoundRobin.Cursor) {
    predicate Valid() {
      |pool| >= 1 && cursor.Valid() && cursor.size == |pool|
    }
  }

  /** Why the proxy refuses to start. */
  datatype ConfigError = NoEndpoints

  /**
   * Builds the selector from the value under `api_configs` (`None` when the
   * key is absent). A missing or empty list is fatal, so a selector only
   * ever exists over a non-empty pool.
   */
  function Load(apiConfigs: Option<seq<Endpoint>>): (r: Result<Selector, ConfigError>)
    ensures r.Success? <==> apiConfigs.Some? && |apiConfigs.value| >= 1
    ensures r.Success? ==> r.value.Valid() && r.value.pool == apiConfigs.value
    ensures r.Success? ==> r.value.cursor.position == 0
  {
    match apiConfigs
    case None => Failure(NoEndpoints)
    case Some(configs) =>
      if |configs| == 0 then Failure(NoEndpoints)
      else Success(Selector(configs, RoundRobin.Start(|configs|)))
  }

  /** One call of the selector: the endpoint chosen and the selector after it. */
  function Select(s: Selector): (r: (Endpoint, Selector))
    requires s.Valid()
    ensures r.1.Valid() && r.1.pool == s.pool
    ensures r.0 == s.pool[s.cursor.position]
    ensures r.1.cursor == RoundRobin.Advance(s.cursor, 1)
  {
    var (i, c) := RoundRobin.Next(s.cursor);
    (s.pool[i], Selector(s.pool, c))
  }

  /** The endpoints handed out by `k` successive calls of the selector. */
  function SelectMany(s: Selector, k: nat): (r: seq<Endpoint>)
    requires s.Valid()
    ensures |r| == k
    decreases k
  {
    if k == 0 then [] else var (e, s') := Select(s); [e] + SelectMany(s', k - 1)
  }

  /** The selector after `k` calls. */
  function SelectAfter(s: Selector, k: nat): (r: Selector)
    requires s.Valid()
    ensures r.Valid() && r.pool == s.pool
    ensures r.cursor == RoundRobin.Advance(s.cursor, k)
    decreases k
  {
    if k == 0 then s else SelectAfter(Select(s).1, k - 1)
  }

  lemma {:induction false} SelectManyFollowsCursor(s: Selector, k: nat, i: nat)
    requires s.Valid() && i < k
    ensures SelectMany(s, k)[i] == s.pool[RoundRobin.Run(s.cursor, k)[i]]
    decreases i
  {
    if i > 0 {
      SelectManyFollowsCursor(Select(s).1, k - 1, i - 1);
    }
  }

  /**
   * From a freshly loaded pool of `n` endpoints, the `i`-th call of the
   * selector (counting from 0) returns the endpoint at index `i mod n`.
   */
  lemma LoadedSelectionCycles(configs: seq<Endpoint>, k: nat)
    requires |configs| >= 1
    ensures Load(Some(configs)).Success?
    ensures forall i | 0 <= i < k ::
      SelectMany(Load(Some(configs)).value, k)[i] == configs[i % |configs|]
  {
    var s := Load(Some(configs)).value;
    RoundRobin.KthSelection(|configs|, k);
    forall i | 0 <= i < k
      ensures SelectMany(s, k)[i] == configs[i % |configs|]
    {
      SelectManyFollowsCursor(s, k, i);
    }
  }
}

=== FILE: outbound.dfy ===
/**
 * Construction of the outbound request from an inbound request and the
 * chosen endpoint: target URL, rewritten headers and the request body.
 */
module Outbound {
  import opened Wrappers
  import opened Text
  import Url
  import Endpoints

  const HostHeader := "Host"
  const ApiKeyHeader := "x-goog-api-key"
  const ContentLengthHeader := "Content-Length"

  /** Request headers as an exact-key dictionary. */
  type HeaderMap = map<string, string>

  /** The two methods the handler serves. */
  datatype Method = Get | Post

  /** What the handler sees of a client request; `stream` is what remains to be read from the connection. */
  datatype InboundRequest = InboundRequest(verb: Method, path: string, headers: HeaderMap, stream: seq<Byte>)

  /** The request handed to `urlopen`; `body` is `None` when no data is attached. */
  datatype OutboundRequest = OutboundRequest(verb: Method, url: string, headers: HeaderMap, body: Option<seq<Byte>>)

  /**
   * Why the handler raises before the `try` block, so that the client
   * receives no response: a missing `base_url` or `api_key` key
   * (`KeyError`), a `Content-Length` that `int` rejects (`ValueError`), a
   * length that `rfile.read` rejects (`ValueError` below -1, `OverflowError`
   * beyond the largest index-sized integer), or a target URL without a type
   * (`ValueError` from `Request`).
   */
  datatype Abort = MissingBaseUrl | MissingApiKey | BadContentLength | BadReadSize | UnknownUrlType

  /** The largest `Py_ssize_t` of a 64-bit build, the most `read` accepts. */
  const MaxReadSize: int := 0x7FFF_FFFF_FFFF_FFFF

  /** The sizes a buffered `read` accepts: -1 (read to the end) or a non-negative index-sized integer. */
  predicate IsReadSize(n: int) {
    -1 <= n <= MaxReadSize
  }

  /**
   * The inbound headers with `Host` and the credential header set; a value
   * the client sent under either key is replaced, every other entry is kept.
   */
  function OverrideHeaders(inbound: HeaderMap, host: string, apiKey: string): (r: HeaderMap)
    ensures r.Keys == inbound.Keys + {HostHeader, ApiKeyHeader}
    ensures r[HostHeader] == host && r[ApiKeyHeader] == apiKey
    ensures forall k | k in inbound && k != HostHeader && k != ApiKeyHeader :: r[k] == inbound[k]
    ensures r - {HostHeader, ApiKeyHeader} == inbound - {HostHeader, ApiKeyHeader}
  {
    inbound[HostHeader := host][ApiKeyHeader := apiKey]
  }

  /** `rfile.read(n)`: up to `n` bytes, and everything that is left when `n` is -1. */
  function ReadStream(stream: seq<Byte>, n: int): (r: seq<Byte>)
    requires n >= -1
    ensures r <= stream
    ensures n >= 0 ==> |r| == if n <= |stream| then n else |stream|
    ensures n == -1 ==> r == stream
  {
    if n == -1 then stream else if n <= |stream| then stream[..n] else stream
  }

  /** The length `_forward_request` asks for: the parsed `Content-Length`, 0 when the header is absent. */
  function ContentLength(headers: HeaderMap): (r: Option<int>)
    ensures ContentLengthHeader !in headers ==> r == Some(0)
    ensures ContentLengthHeader in headers ==> r == ParseInt(headers[ContentLengthHeader])
  {
    if ContentLengthHeader in headers then ParseInt(headers[ContentLengthHeader]) else Some(0)
  }

  /**
   * The body sent upstream. Only a `POST` reads one, of the length its
   * `Content-Length` header names (0 when absent); a `GET` sends none.
   */
  function ReadBody(verb: Method, headers: HeaderMap, stream: seq<Byte>): (r: Result<Option<seq<Byte>>, Abort>)
    ensures verb == Get ==> r == Success(None)
    ensures r.Failure? <==>
      verb == Post && (ContentLength(headers).None? || !IsReadSize(ContentLength(headers).value))
    ensures r.Failure? && ContentLength(headers).None? ==> r.error == BadContentLength
    ensures r.Failure? && ContentLength(headers).Some? ==> r.error == BadReadSize
    ensures r.Success? ==> (r.value.Some? <==> verb == Post)
    ensures r.Success? && r.value.Some? ==> r.value.value <= stream
    ensures verb == Post && ContentLengthHeader !in headers ==> r == Success(Some([]))
    ensures verb == Post && ContentLength(headers) == Some(-1) ==> r == Success(Some(stream))
    ensures verb == Post && ContentLength(headers).Some? && 0 <= ContentLength(headers).value <= MaxReadSize ==>
      r.Success? && |r.value.value| ==
        if ContentLength(headers).value <= |stream| then ContentLength(headers).value else |stream|
  {
    match verb
    case Get => Success(None)
    case Post =>
      match ContentLength(headers)
      case None => Failure(BadContentLength)
      case Some(n) =>
        if IsReadSize(n) then Success(Some(ReadStream(stream, n))) else Failure(BadReadSize)
  }

  /**
   * A `POST` whose `Content-Length` is the decimal spelling of `n`, with at
   * least `n` bytes available, sends exactly the first `n` bytes.
   */
  lemma BodyFollowsContentLength(headers: HeaderMap, stream: seq<Byte>, n: nat)
    requires ContentLengthHeader in headers && headers[ContentLengthHeader] == NatToString(n)
    requires n <= |stream| && n <= MaxReadSize
    ensures ReadBody(Post, headers, stream) == Success(Some(stream[..n]))
  {
    assert MaxReadSize < Pow10(19) by {
      assert Pow10(1) == 10;
      assert Pow10(2) == 100;
      assert Pow10(3) == 1000;
      assert Pow10(4) == 10000;
      assert Pow10(5) == 100000;
      assert Pow10(6) == 1000000;
      assert Pow10(7) == 10000000;
      assert Pow10(8) == 100000000;
      assert Pow10(9) == 1000000000;
      assert Pow10(10) == 10000000000;
      assert Pow10(11) == 100000000000;
      assert Pow10(12) == 1000000000000;
      assert Pow10(13) == 10000000000000;
      assert Pow10(14) == 100000000000000;
      assert Pow10(15) == 1000000000000000;
      assert Pow10(16) == 10000000000000000;
      assert Pow10(17) == 100000000000000000;
      assert Pow10(18) == 1000000000000000000;
      assert Pow10(19) == 10000000000000000000;
    }
    NatToStringLength(n, 19);
    ParseNatToString(n);
  }

  /**
   * A `Content-Length` of -2 or below is never forwarded: `rfile.read`
   * refuses it, or `int` already does when it has too many digits.
   */
  lemma NegativeLengthIsRefused(headers: HeaderMap, stream: seq<Byte>, n: nat)
    requires ContentLengthHeader in headers && headers[ContentLengthHeader] == "-" + NatToString(n)
    requires n >= 2
    ensures ReadBody(Post, headers, stream).Failure?
    ensures |NatToString(n)| <= MaxStrDigits ==> ReadBody(Post, headers, stream) == Failure(BadReadSize)
  {
    if |NatToString(n)| <= MaxStrDigits {
      ParseNatToString(n);
    } else {
      assert headers[ContentLengthHeader][1..] == NatToString(n);
    }
  }

  /**
   * The request `_forward_request` builds for `endpoint`, or the reason it
   * raises first, checked in the order the handler evaluates them.
   */
  function Build(endpoint: Endpoints.Endpoint, req: InboundRequest): (r: Result<OutboundRequest, Abort>)
    ensures endpoint.baseUrl.None? ==> r == Failure(MissingBaseUrl)
    ensures endpoint.baseUrl.Some? && endpoint.apiKey.None? ==> r == Failure(MissingApiKey)
    ensures r.Success? <==>
      && endpoint.baseUrl.Some? && endpoint.apiKey.Some?
      && ReadBody(req.verb, req.headers, req.stream).Success?
      && Url.HasUrlType(Url.TargetUrl(endpoint.baseUrl.value, req.path))
    ensures r.Success? ==>
      && r.value.verb == req.verb
      && r.value.url == Url.TargetUrl(endpoint.baseUrl.value, req.path)
      && HostHeader in r.value.headers && ApiKeyHeader in r.value.headers
      && r.value.headers[ApiKeyHeader] == endpoint.apiKey.value
      && r.value.headers[HostHeader] == Url.Authority(r.value.url)
      && r.value.headers - {HostHeader, ApiKeyHeader} == req.headers - {HostHeader, ApiKeyHeader}
      && r.value.body == ReadBody(req.verb, req.headers, req.stream).value
  {
    match endpoint.baseUrl
    case None => Failure(MissingBaseUrl)
    case Some(baseUrl) =>
      var target := Url.TargetUrl(baseUrl, req.path);
      var host := Url.Authority(target);
      match endpoint.apiKey
      case None => Failure(MissingApiKey)
      case Some(apiKey) =>
        var headers := OverrideHeaders(req.headers, host, apiKey);
        match ReadBody(req.verb, req.headers, req.stream)
        case Failure(e) => Failure(e)
        case Success(body) =>
          if Url.HasUrlType(target) then Success(OutboundRequest(req.verb, target, headers, body))
          else Failure(UnknownUrlType)
  }
}

=== FILE: proxy.dfy ===
/**
 * One pass of `_forward_request` and a run of them: select an endpoint,
 * build the outbound request, hand it to the upstream, relay the outcome.
 * The upstream (`urlopen` together with the network) is a parameter.
 */
module Proxy {
  import opened Wrappers
  import RoundRobin
  import Endpoints
  import Outbound
  import Url
  import Relay

  /**
   * What becomes of one inbound request: a response, an exception before
   * the upstream is asked, or an exception from `send_error` while
   * reporting a failure whose message does not encode as Latin-1. The last
   * two leave the client without a response.
   */
  datatype Handled =
    | Responded(response: Relay.ClientResponse)
    | Dropped(reason: Outbound.Abort)
    | Unanswered(description: string)

  /** The upstream's answer to each outbound request. */
  type Upstream = Outbound.OutboundRequest -> Relay.UpstreamOutcome

  /**
   * `out` is the request sent upstream for `req` through `endpoint`: the
   * client's method, `base_url + path`, the client's headers with `Host`
   * and the key replaced, and the body read as `Content-Length` says.
   */
  predicate Forwarded(endpoint: Endpoints.Endpoint, req: Outbound.InboundRequest, out: Outbound.OutboundRequest)
    requires endpoint.baseUrl.Some? && endpoint.apiKey.Some?
  {
    && out.verb == req.verb
    && out.url == Url.TargetUrl(endpoint.baseUrl.value, req.path)
    && out.headers == Outbound.OverrideHeaders(req.headers, Url.Authority(out.url), endpoint.apiKey.value)
    && Outbound.ReadBody(req.verb, req.headers, req.stream).Success?
    && out.body == Outbound.ReadBody(req.verb, req.headers, req.stream).value
  }

  /**
   * Forwarding one request to an endpoint that has already been chosen: a
   * request that cannot be built gets no response and never reaches the
   * upstream; otherwise the upstream is asked once and its answer relayed,
   * unless that answer is a failure whose description is not Latin-1.
   */
  function ForwardTo(endpoint: Endpoints.Endpoint, req: Outbound.InboundRequest, upstream: Upstream): (r: Handled)
    ensures r.Dropped? <==>
      || endpoint.baseUrl.None? || endpoint.apiKey.None?
      || Outbound.ReadBody(req.verb, req.headers, req.stream).Failure?
      || !Url.HasUrlType(Url.TargetUrl(endpoint.baseUrl.value, req.path))
    ensures endpoint.baseUrl.None? ==> r == Dropped(Outbound.MissingBaseUrl)
    ensures endpoint.baseUrl.Some? && endpoint.apiKey.None? ==> r == Dropped(Outbound.MissingApiKey)
    ensures r.Responded? ==> endpoint.baseUrl.Some? && endpoint.apiKey.Some? && exists out: Outbound.OutboundRequest ::
      && Forwarded(endpoint, req, out)
      && Relay.Respond(upstream(out)) == Some(r.response)
    ensures r.Unanswered? ==> endpoint.baseUrl.Some? && endpoint.apiKey.Some? && exists out: Outbound.OutboundRequest ::
      && Forwarded(endpoint, req, out)
      && upstream(out) == Relay.TransportFailure(r.description)
      && !Relay.IsLatin1(r.description)
  {
    match Outbound.Build(endpoint, req)
    case Failure(reason) => Dropped(reason)
    case Success(out) =>
      match Relay.Respond(upstream(out))
      case Some(response) => Responded(response)
      case None => Unanswered(upstream(out).description)
  }

  /**
   * Handling one request: the cursor moves on by exactly one step whatever
   * the request turns into, so a failing endpoint is neither retried nor
   * skipped afterwards.
   */
  function Handle(s: Endpoints.Selector, req: Outbound.InboundRequest, upstream: Upstream): (r: (Handled, Endpoints.Selector))
    requires s.Valid()
    ensures r.1.Valid() && r.1.pool == s.pool
    ensures r.1.cursor == RoundRobin.Advance(s.cursor, 1)
    ensures r.0 == ForwardTo(s.pool[s.cursor.position], req, upstream)
  {
    var (endpoint, s') := Endpoints.Select(s);
    (ForwardTo(endpoint, req, upstream), s')
  }

  /** Handling requests one after another, as their critical sections are entered. */
  function Serve(s: Endpoints.Selector, reqs: seq<Outbound.InboundRequest>, upstream: Upstream): (r: (seq<Handled>, Endpoints.Selector))
    requires s.Valid()
    ensures |r.0| == |reqs|
    ensures r.1 == Endpoints.SelectAfter(s, |reqs|)
    ensures r.1.pool == s.pool && r.1.cursor == RoundRobin.Advance(s.cursor, |reqs|)
    decreases |reqs|
  {
    if |reqs| == 0 then ([], s)
    else
      var (first, s') := Handle(s, reqs[0], upstream);
      var (rest, s'') := Serve(s', reqs[1..], upstream);
      ([first] + rest, s'')
  }

  lemma {:induction false} ServeRoutes(s: Endpoints.Selector, reqs: seq<Outbound.InboundRequest>, upstream: Upstream, i: nat)
    requires s.Valid() && i < |reqs|
    ensures Serve(s, reqs, upstream).0[i] == ForwardTo(Endpoints.SelectMany(s, |reqs|)[i], reqs[i], upstream)
    decreases i
  {
    if i > 0 {
      ServeRoutes(Handle(s, reqs[0], upstream).1, reqs[1..], upstream, i - 1);
    }
  }

  /**
   * From a freshly loaded pool of `n` endpoints, the `i`-th request is
   * forwarded to endpoint `i mod n`, whatever became of earlier requests.
   */
  lemma ServeIsRoundRobin(configs: seq<Endpoints.Endpoint>, reqs: seq<Outbound.InboundRequest>, upstream: Upstream)
    requires |configs| >= 1
    ensures Endpoints.Load(Some(configs)).Success?
    ensures forall i | 0 <= i < |reqs| ::
      Serve(Endpoints.Load(Some(configs)).value, reqs, upstream).0[i] == ForwardTo(configs[i % |configs|], reqs[i], upstream)
  {
    var s := Endpoints.Load(Some(configs)).value;
    Endpoints.LoadedSelectionCycles(configs, |reqs|);
    forall i | 0 <= i < |reqs|
      ensures Serve(s, reqs, upstream).0[i] == ForwardTo(configs[i % |configs|], reqs[i], upstream)
    {
      ServeRoutes(s, reqs, upstream, i);
    }
  }

  /**
   * A `GET` to an endpoint with both keys and a base URL that has a type
   * always reaches the upstream, which sees the endpoint's credential
   * whatever the client sent; its error reply reaches the client unchanged.
   */
  lemma GetReachesUpstream(endpoint: Endpoints.Endpoint, req: Outbound.InboundRequest, upstream: Upstream)
    requires endpoint.baseUrl.Some? && endpoint.apiKey.Some?
    requires Url.HasUrlType(endpoint.baseUrl.value)
    requires req.verb == Outbound.Get
    ensures Outbound.Build(endpoint, req).Success?
    ensures Outbound.Build(endpoint, req).value.headers[Outbound.ApiKeyHeader] == endpoint.apiKey.value
    ensures Outbound.Build(endpoint, req).value.body == None
    ensures var outcome := upstream(Outbound.Build(endpoint, req).value);
      outcome.HttpError? ==>
        ForwardTo(endpoint, req, upstream) == Responded(Relay.Relayed(outcome.code, outcome.headers, outcome.body))
  {
    Url.FindAnyAppend(endpoint.baseUrl.value, req.path, {':'}, 0);
  }

  /**
   * A request that reaches the upstream goes unanswered exactly when the
   * upstream fails with a description that is not Latin-1; otherwise the
   * client gets the relayed answer.
   */
  lemma UnansweredExactly(endpoint: Endpoints.Endpoint, req: Outbound.InboundRequest, upstream: Upstream, out: Outbound.OutboundRequest)
    requires endpoint.baseUrl.Some? && endpoint.apiKey.Some?
    requires Forwarded(endpoint, req, out) && Url.HasUrlType(out.url)
    ensures ForwardTo(endpoint, req, upstream).Unanswered? <==>
      upstream(out).TransportFailure? && !Relay.IsLatin1(upstream(out).description)
    ensures !ForwardTo(endpoint, req, upstream).Unanswered? ==>
      ForwardTo(endpoint, req, upstream) == Responded(Relay.Respond(upstream(out)).value)
  {
  }
}

=== FILE: relay.dfy ===
/**
 * Relaying the upstream outcome to the client: a normal reply with its
 * encoding headers dropped, an `HTTPError` reply with every header kept,
 * and any other failure as a 502 error page.
 */
module Relay {
  import opened Wrappers
  import opened Text

  /** One response header line, name and value, as `getheaders()` lists it. */
  type Header = (string, string)

  /** What `urlopen` produced for the outbound request. */
  datatype UpstreamOutcome =
    | Reply(status: int, headers: seq<Header>, body: seq<Byte>)
    | HttpError(code: int, headers: seq<Header>, body: seq<Byte>)
    | TransportFailure(description: string)

  /**
   * What the handler writes back: the status, the headers it passes to
   * `send_header` and the body, or the server's own error page from
   * `send_error(code, message)`. The `Server` and `Date` headers that
   * `send_response` adds ahead of the relayed ones are not part of it.
   */
  datatype ClientResponse =
    | Relayed(status: int, headers: seq<Header>, body: seq<Byte>)
    | ErrorPage(code: int, message: string)

  const ProxyErrorStatus := 502
  const ProxyErrorPrefix := "Proxy Error: "

  /**
   * Whether `s.encode('latin-1', 'strict')` succeeds: every character is a
   * code point below 256. The status line that `send_response` writes is
   * encoded this way.
   */
  predicate IsLatin1(s: string) {
    forall i | 0 <= i < |s| :: s[i] as int < 256
  }

  /**
   * The header names the success path does not relay, found by comparing
   * the lower-cased name: exactly the two names, in any mix of case.
   */
  function IsEncodingHeader(name: string): (b: bool)
    ensures b <==> EqualIgnoringCase(name, "transfer-encoding") || EqualIgnoringCase(name, "content-encoding")
  {
    LowerMatchesIgnoringCase(name, "transfer-encoding");
    LowerMatchesIgnoringCase(name, "content-encoding");
    Lower(name) == "transfer-encoding" || Lower(name) == "content-encoding"
  }

  /** Whether no header of `hs` is an encoding header. */
  predicate NoEncodingHeaders(hs: seq<Header>) {
    forall i | 0 <= i < |hs| :: !IsEncodingHeader(hs[i].0)
  }

  /** The headers of a normal reply that reach the client, in their upstream order. */
  function RelayHeaders(hs: seq<Header>): (r: seq<Header>)
    ensures forall h :: h in r <==> h in hs && !IsEncodingHeader(h.0)
    ensures |r| <= |hs|
    ensures |r| == |hs| <==> NoEncodingHeaders(hs)
  {
    if |hs| == 0 then []
    else
      var rest := RelayHeaders(hs[1..]);
      assert hs == [hs[0]] + hs[1..];
      if IsEncodingHeader(hs[0].0) then rest else [hs[0]] + rest
  }

  /** Each kept header occurs as often as upstream sent it; each encoding header not at all. */
  lemma {:induction false} RelayHeadersCount(hs: seq<Header>, h: Header)
    ensures multiset(RelayHeaders(hs))[h] == if IsEncodingHeader(h.0) then 0 else multiset(hs)[h]
    decreases |hs|
  {
    if |hs| > 0 {
      RelayHeadersCount(hs[1..], h);
      assert hs == [hs[0]] + hs[1..];
    }
  }

  /** Filtering distributes over concatenation: the relative order of kept headers is unchanged. */
  lemma {:induction false} RelayHeadersAppend(a: seq<Header>, b: seq<Header>)
    ensures RelayHeaders(a + b) == RelayHeaders(a) + RelayHeaders(b)
    decreases |a|
  {
    if |a| == 0 {
      assert a + b == b;
    } else {
      assert (a + b)[0] == a[0];
      assert (a + b)[1..] == a[1..] + b;
      RelayHeadersAppend(a[1..], b);
    }
  }

  /** Filtering an already filtered list changes nothing. */
  lemma {:induction false} RelayHeadersIdempotent(hs: seq<Header>)
    ensures RelayHeaders(RelayHeaders(hs)) == RelayHeaders(hs)
    decreases |hs|
  {
    if |hs| > 0 {
      RelayHeadersIdempotent(hs[1..]);
      var rest := RelayHeaders(hs[1..]);
      if !IsEncodingHeader(hs[0].0) {
        assert ([hs[0]] + rest)[1..] == rest;
      }
    }
  }

  /**
   * The loop of the success path: each upstream header in turn is passed to
   * `send_header` unless its lower-cased name is an encoding header.
   */
  method SendHeaders(hs: seq<Header>) returns (sent: seq<Header>)
    ensures sent == RelayHeaders(hs)
  {
    sent := [];
    var i := 0;
    while i < |hs|
      invariant 0 <= i <= |hs|
      invariant sent == RelayHeaders(hs[..i])
    {
      RelayHeadersAppend(hs[..i], [hs[i]]);
      assert hs[..i + 1] == hs[..i] + [hs[i]];
      if !IsEncodingHeader(hs[i].0) {
        sent := sent + [hs[i]];
      }
      i := i + 1;
    }
    assert hs[..i] == hs;
  }

  /**
   * The response the client receives for each upstream outcome, or `None`
   * when the handler raises before anything is sent. Status and body pass
   * through on both reply paths; only the normal reply has its encoding
   * headers removed; any other failure becomes a 502 naming it, whose
   * message goes into the Latin-1 status line, so a description with a
   * character beyond Latin-1 makes `send_error` itself raise.
   */
  function Respond(outcome: UpstreamOutcome): (r: Option<ClientResponse>)
    ensures r.None? <==> outcome.TransportFailure? && !IsLatin1(outcome.description)
    ensures outcome.Reply? ==>
      r.Some? && r.value.Relayed?
      && r.value.status == outcome.status && r.value.body == outcome.body
      && r.value.headers == RelayHeaders(outcome.headers)
      && NoEncodingHeaders(r.value.headers)
      && forall h :: h in outcome.headers && !IsEncodingHeader(h.0) ==> h in r.value.headers
    ensures outcome.HttpError? ==> r == Some(Relayed(outcome.code, outcome.headers, outcome.body))
    ensures outcome.TransportFailure? && r.Some? ==>
      r.value.ErrorPage? && r.value.code == ProxyErrorStatus && IsLatin1(r.value.message)
      && ProxyErrorPrefix <= r.value.message && r.value.message[|ProxyErrorPrefix|..] == outcome.description
  {
    match outcome
    case Reply(status, headers, body) =>
      var relayed := RelayHeaders(headers);
      assert forall i | 0 <= i < |relayed| :: relayed[i] in relayed;
      Some(Relayed(status, relayed, body))
    case HttpError(code, headers, body) => Some(Relayed(code, headers, body))
    case TransportFailure(description) =>
      var message := ProxyErrorPrefix + description;
      PrefixedLatin1(description);
      if IsLatin1(message) then Some(ErrorPage(ProxyErrorStatus, message)) else None
  }

  /** The prefix is ASCII, so the message encodes exactly when the description does. */
  lemma PrefixedLatin1(description: string)
    ensures IsLatin1(ProxyErrorPrefix + description) <==> IsLatin1(description)
  {
    var message := ProxyErrorPrefix + description;
    assert forall i | 0 <= i < |description| :: message[|ProxyErrorPrefix| + i] == description[i];
  }

  /**
   * The two reply paths differ only in header filtering: the same status,
   * headers and body give the same client response exactly when no header
   * is an encoding header.
   */
  lemma ReplyAndErrorAgree(status: int, hs: seq<Header>, body: seq<Byte>)
    ensures Respond(Reply(status, hs, body)) == Respond(HttpError(status, hs, body)) <==> NoEncodingHeaders(hs)
  {
    if NoEncodingHeaders(hs) {
      NoEncodingHeadersKept(hs);
    }
  }

  lemma {:induction false} NoEncodingHeadersKept(hs: seq<Header>)
    requires NoEncodingHeaders(hs)
    ensures RelayHeaders(hs) == hs
    decreases |hs|
  {
    if |hs| > 0 {
      NoEncodingHeadersKept(hs[1..]);
      assert hs == [hs[0]] + hs[1..];
    }
  }

  /**
   * A chunked reply: the normal path drops `Transfer-Encoding` and keeps
   * `Content-Type`, while the `HTTPError` path relays both.
   */
  lemma ChunkedReplyExample(body: seq<Byte>)
    ensures var hs := [("Transfer-Encoding", "chunked"), ("Content-Type", "application/json")];
      && Respond(Reply(429, hs, body)) == Some(Relayed(429, [("Content-Type", "application/json")], body))
      && Respond(HttpError(429, hs, body)) == Some(Relayed(429, hs, body))
  {
    var hs := [("Transfer-Encoding", "chunked"), ("Content-Type", "application/json")];
    assert Lower("Transfer-Encoding") == "transfer-encoding";
    assert !IsEncodingHeader("Content-Type");
    assert hs[1..][1..] == [];
    assert RelayHeaders(hs[1..]) == [hs[1]];
    assert RelayHeaders(hs) == [("Content-Type", "application/json")];
  }
}

=== FILE: round_robin.dfy ===
/**
 * The rotation cursor behind `itertools.cycle(range(n))`: a position in
 * `[0, n)` that hands out its value and moves on, wrapping after `n - 1`.
 * Taking the lock around `next(api_counter)` makes each selection one
 * atomic step, so the cursor is modelled as a pure state machine.
 */
module RoundRobin {

  datatype Cursor = Cursor(size: nat, position: nat) {
    /** A cursor over a non-empty pool, pointing at one of its indices. */
    predicate Valid() {
      size >= 1 && position < size
    }
  }

  /** The cursor a freshly built `cycle(range(n))` starts from. */
  function Start(n: nat): (c: Cursor)
    requires n >= 1
    ensures c.Valid() && c.size == n && c.position == 0
  {
    Cursor(n, 0)
  }

  /** One selection: the index handed out and the cursor after it. */
  function Next(c: Cursor): (r: (nat, Cursor))
    requires c.Valid()
    ensures r.0 == c.position && r.0 < c.size
    ensures r.1.Valid() && r.1.size == c.size
    ensures r.1.position == (r.0 + 1) % c.size
  {
    var following := if c.position + 1 == c.size then 0 else c.position + 1;
    ModUnique(c.position + 1, c.size, if c.position + 1 == c.size then 1 else 0, following);
    (c.position, Cursor(c.size, following))
  }

  /** The cursor after `k` selections. */
  function Advance(c: Cursor, k: nat): (r: Cursor)
    requires c.Valid()
    ensures r.Valid() && r.size == c.size
    decreases k
  {
    if k == 0 then c else Advance(Next(c).1, k - 1)
  }

  /** The indices handed out by `k` selections, in the order they happen. */
  function Run(c: Cursor, k: nat): (r: seq<nat>)
    requires c.Valid()
    ensures |r| == k
    ensures forall i | 0 <= i < k :: r[i] < c.size
    decreases k
  {
    if k == 0 then [] else [Next(c).0] + Run(Next(c).1, k - 1)
  }

  /** The indices `0, 1, ..., n - 1`. */
  function Range(n: nat): (r: seq<nat>)
    ensures |r| == n
  {
    seq(n, i requires 0 <= i < n => i)
  }

  lemma MulBounds(d: int, n: int)
    requires n >= 1
    ensures d >= 1 ==> d * n >= n
    ensures d <= -1 ==> d * n <= -n
  {
    if d >= 1 {
      var e: nat := d - 1;
      assert d * n == e * n + n;
    } else if d <= -1 {
      var e: nat := -d - 1;
      assert d * n == -(e * n) - n;
    }
  }

  /** Euclidean division has exactly one quotient and remainder. */
  lemma ModUnique(a: int, n: int, q: int, r: int)
    requires n >= 1 && 0 <= r < n && a == q * n + r
    ensures a % n == r && a / n == q
  {
    var q0, r0 := a / n, a % n;
    assert a == q0 * n + r0;
    var d := q0 - q;
    assert d * n == q0 * n - q * n;
    MulBounds(d, n);
  }

  lemma ModAddMultiple(a: nat, q: nat, n: nat)
    requires n >= 1
    ensures (q * n + a) % n == a % n
  {
    assert a == (a / n) * n + a % n;
    assert q * n + a == (q + a / n) * n + a % n;
    ModUnique(q * n + a, n, q + a / n, a % n);
  }

  /** After `k` selections the cursor sits `k` places further round the pool. */
  lemma {:induction false} AdvancePosition(c: Cursor, k: nat)
    requires c.Valid()
    ensures Advance(c, k).position == (c.position + k) % c.size
    decreases k
  {
    if k > 0 {
      var c1 := Next(c).1;
      AdvancePosition(c1, k - 1);
      assert Advance(c, k) == Advance(c1, k - 1);
      if c.position + 1 == c.size {
        ModAddMultiple(k - 1, 1, c.size);
      }
    }
  }

  /** The `i`-th selection hands out the index the cursor has reached after `i` steps. */
  lemma {:induction false} RunAt(c: Cursor, k: nat, i: nat)
    requires c.Valid() && i < k
    ensures Run(c, k)[i] == Advance(c, i).position
    decreases i
  {
    if i > 0 {
      RunAt(Next(c).1, k - 1, i - 1);
    }
  }

  /**
   * Selection never goes out of bounds and follows the pool cyclically:
   * counting from 0, the k-th selection from a fresh cursor is `k mod n`.
   */
  lemma KthSelection(n: nat, k: nat)
    requires n >= 1
    ensures forall i | 0 <= i < k :: Run(Start(n), k)[i] == i % n < n
  {
    forall i | 0 <= i < k
      ensures Run(Start(n), k)[i] == i % n
    {
      RunAt(Start(n), k, i);
      AdvancePosition(Start(n), i);
    }
  }

  lemma {:induction false} RunSplit(c: Cursor, a: nat, b: nat)
    requires c.Valid()
    ensures Run(c, a + b) == Run(c, a) + Run(Advance(c, a), b)
    decreases a
  {
    if a > 0 {
      RunSplit(Next(c).1, a - 1, b);
      assert a + b - 1 == (a - 1) + b;
    }
  }

  lemma RangeCount(n: nat, j: nat)
    ensures multiset(Range(n))[j] == if j < n then 1 else 0
  {
    if n > 0 {
      assert Range(n) == Range(n - 1) + [n - 1];
      RangeCount(n - 1, j);
    }
  }

  /**
   * Fair cycling: `m * n` selections from a fresh cursor hand out every
   * index of the pool exactly `m` times and nothing else.
   */
  lemma {:induction false} FairCycling(n: nat, m: nat)
    requires n >= 1
    ensures forall j: nat :: multiset(Run(Start(n), m * n))[j] == if j < n then m else 0
    decreases m
  {
    if m > 0 {
      var s := Start(n);
      var rest := (m - 1) * n;
      FairCycling(n, m - 1);
      assert m * n == n + rest;
      RunSplit(s, n, rest);
      OneCycle(n);
      assert Run(s, m * n) == Range(n) + Run(s, rest);
      forall j: nat
        ensures multiset(Run(s, m * n))[j] == if j < n then m else 0
      {
        RangeCount(n, j);
      }
    }
  }

  /** A full cycle from a fresh cursor hands out `0, ..., n - 1` and comes back to the start. */
  lemma OneCycle(n: nat)
    requires n >= 1
    ensures Run(Start(n), n) == Range(n)
    ensures Advance(Start(n), n) == Start(n)
  {
    KthSelection(n, n);
    forall i | 0 <= i < n
      ensures Run(Start(n), n)[i] == Range(n)[i]
    {
      ModUnique(i, n, 0, i);
    }
    AdvancePosition(Start(n), n);
    ModUnique(n, n, 1, 0);
  }

  /**
   * `k` successive selections from a fresh cursor, as a caller issuing
   * requests one after another observes them.
   */
  method SelectionLog(n: nat, k: nat) returns (log: seq<nat>)
    requires n >= 1
    ensures |log| == k
    ensures forall i | 0 <= i < k :: log[i] == i % n
    ensures log == Run(Start(n), k)
  {
    var c := Start(n);
    log := [];
    var i := 0;
    while i < k
      invariant 0 <= i <= k
      invariant c == Advance(Start(n), i)
      invariant log == Run(Start(n), i)
    {
      var step := Next(c);
      RunSplit(Start(n), i, 1);
      AdvanceOne(Start(n), i);
      log := log + [step.0];
      c := step.1;
      i := i + 1;
    }
    KthSelection(n, k);
  }

  lemma {:induction false} AdvanceOne(c: Cursor, i: nat)
    requires c.Valid()
    ensures Advance(c, i + 1) == Next(Advance(c, i)).1
    ensures Run(Advance(c, i), 1) == [Next(Advance(c, i)).0]
    decreases i
  {
    if i > 0 {
      AdvanceOne(Next(c).1, i - 1);
    }
  }
}

=== FILE: text.dfy ===
/**
 * Character-level helpers the proxy relies on: ASCII lower-casing (Python's
 * `str.lower` on header names) and the decimal parsing `int(...)` applies to
 * a `Content-Length` header value.
 */
module Text {
  import opened Wrappers

  /** Body bytes as read from or written to a socket. */
  type Byte = b: int | 0 <= b < 256

  predicate IsUpper(c: char) {
    'A' <= c <= 'Z'
  }

  predicate IsDigit(c: char) {
    '0' <= c <= '9'
  }

  predicate AllDigits(s: string) {
    forall i | 0 <= i < |s| :: IsDigit(s[i])
  }

  function LowerChar(c: char): char {
    if IsUpper(c) then (c as int + 32) as char else c
  }

  /** Lower-cases every ASCII letter and leaves every other character alone. */
  function Lower(s: string): (r: string)
    ensures |r| == |s|
    ensures forall i | 0 <= i < |s| :: r[i] == LowerChar(s[i])
    ensures forall i | 0 <= i < |r| :: !IsUpper(r[i])
  {
    seq(|s|, i requires 0 <= i < |s| => LowerChar(s[i]))
  }

  /** Two names that agree letter by letter once case is ignored. */
  predicate EqualIgnoringCase(a: string, b: string) {
    |a| == |b| && forall i | 0 <= i < |a| :: LowerChar(a[i]) == LowerChar(b[i])
  }

  /** Comparing `Lower(a)` with a lower-case literal is a case-insensitive comparison. */
  lemma LowerMatchesIgnoringCase(a: string, t: string)
    requires forall i | 0 <= i < |t| :: !IsUpper(t[i])
    ensures Lower(a) == t <==> EqualIgnoringCase(a, t)
  {
    if EqualIgnoringCase(a, t) {
      forall i | 0 <= i < |t|
        ensures Lower(a)[i] == t[i]
      {
        assert LowerChar(t[i]) == t[i];
      }
    }
  }

  function DigitValue(c: char): (d: nat)
    requires IsDigit(c)
    ensures d < 10
  {
    c as int - '0' as int
  }

  function DigitChar(d: nat): (c: char)
    requires d < 10
    ensures IsDigit(c) && DigitValue(c) == d
  {
    ('0' as int + d) as char
  }

  /** The value of a run of decimal digits, most significant first (0 for none). */
  function DigitsValue(s: string): nat
    requires AllDigits(s)
    decreases |s|
  {
    if |s| == 0 then 0 else DigitsValue(s[..|s| - 1]) * 10 + DigitValue(s[|s| - 1])
  }

  /**
   * The most digits CPython's `int` converts from a decimal string (the
   * default of `sys.set_int_max_str_digits`); a longer one is a `ValueError`.
   */
  const MaxStrDigits: nat := 4300

  /** One or more decimal digits, no more than `int` agrees to convert. */
  predicate IsDecimal(digits: string) {
    0 < |digits| <= MaxStrDigits && AllDigits(digits)
  }

  /**
   * Python's `int(s)` on a string: an optional sign followed by one to
   * `MaxStrDigits` decimal digits; anything else is a `ValueError`, here `None`.
   */
  function ParseInt(s: string): (r: Option<int>)
    ensures r.Some? <==>
      IsDecimal(s) || (|s| > 1 && (s[0] == '+' || s[0] == '-') && IsDecimal(s[1..]))
    ensures r.Some? && |s| > 0 && s[0] == '-' ==> r.value <= 0
    ensures r.Some? && |s| > 0 && s[0] != '-' ==> r.value >= 0
  {
    if |s| == 0 then None
    else if s[0] == '+' || s[0] == '-' then
      var digits := s[1..];
      if IsDecimal(digits) then
        Some(if s[0] == '-' then -(DigitsValue(digits) as int) else DigitsValue(digits))
      else None
    else if IsDecimal(s) then Some(DigitsValue(s))
    else None
  }

  /** The canonical decimal spelling of a natural number, as `str(n)` writes it. */
  function NatToString(n: nat): (s: string)
    ensures |s| > 0 && AllDigits(s)
    decreases n
  {
    if n < 10 then [DigitChar(n)] else NatToString(n / 10) + [DigitChar(n % 10)]
  }

  lemma {:induction false} DigitsOfNatToString(n: nat)
    ensures DigitsValue(NatToString(n)) == n
    decreases n
  {
    var s := NatToString(n);
    if n >= 10 {
      DigitsOfNatToString(n / 10);
      assert s[..|s| - 1] == NatToString(n / 10);
    }
  }

  function Pow10(k: nat): (p: nat)
    ensures p >= 1
  {
    if k == 0 then 1 else 10 * Pow10(k - 1)
  }

  /** A number below `10^k` is spelt with at most `k` digits. */
  lemma {:induction false} NatToStringLength(n: nat, k: nat)
    requires k >= 1 && n < Pow10(k)
    ensures |NatToString(n)| <= k
    decreases k
  {
    if n >= 10 {
      assert k >= 2;
      NatToStringLength(n / 10, k - 1);
    }
  }

  /**
   * Reading back what `str(n)` wrote yields `n`, with or without a sign, as
   * long as `int` agrees to convert that many digits.
   */
  lemma ParseNatToString(n: nat)
    requires |NatToString(n)| <= MaxStrDigits
    ensures ParseInt(NatToString(n)) == Some(n)
    ensures ParseInt("+" + NatToString(n)) == Some(n)
    ensures ParseInt("-" + NatToString(n)) == Some(-(n as int))
  {
    DigitsOfNatToString(n);
    assert ("+" + NatToString(n))[1..] == NatToString(n);
    assert ("-" + NatToString(n))[1..] == NatToString(n);
  }

  /** A leading zero digit adds nothing to the value of a run of digits. */
  lemma {:induction false} DigitsValueLeadingZero(s: string)
    requires AllDigits(s)
    ensures AllDigits("0" + s) && DigitsValue("0" + s) == DigitsValue(s)
    decreases |s|
  {
    var z := "0" + s;
    assert forall i | 0 <= i < |z| :: IsDigit(z[i]) by {
      forall i | 0 <= i < |z| ensures IsDigit(z[i]) {
        if i > 0 { assert z[i] == s[i - 1]; }
      }
    }
    if |s| > 0 {
      var init := s[..|s| - 1];
      assert AllDigits(init) by {
        forall i | 0 <= i < |init| ensures IsDigit(init[i]) { assert init[i] == s[i]; }
      }
      DigitsValueLeadingZero(init);
      assert z[..|z| - 1] == "0" + init;
      assert z[|z| - 1] == s[|s| - 1];
    }
  }

  /**
   * `int` ignores leading zeros: a run of digits with one zero in front
   * parses to the same value, as long as the longer run is within the digit
   * limit.
   */
  lemma LeadingZeroIgnored(s: string)
    requires IsDecimal(s) && |s| < MaxStrDigits
    ensures ParseInt("0" + s) == ParseInt(s)
  {
    DigitsValueLeadingZero(s);
  }
}

=== FILE: url.dfy ===
/**
 * The target URL and the two facts the proxy reads off it: the authority
 * (`urllib.parse.urlparse(target_url).netloc`, sent as `Host`) and whether
 * `urllib.request.Request` recognises a URL type at all.
 */
module Url {
  import opened Wrappers
  import Text

  /** The characters that end the authority part of a URL. */
  const Delimiters: set<char> := {'/', '?', '#'}

  /** `f"{base_url}{path}"`: plain concatenation, no slash normalisation. */
  function TargetUrl(baseUrl: string, path: string): (r: string)
    ensures |r| == |baseUrl| + |path|
    ensures r[..|baseUrl|] == baseUrl && r[|baseUrl|..] == path
  {
    baseUrl + path
  }

  /** The first index at or after `from` holding one of `cs`, or `|s|` when there is none. */
  function FindAny(s: string, cs: set<char>, from: nat): (r: nat)
    requires from <= |s|
    ensures from <= r <= |s|
    ensures r < |s| ==> s[r] in cs
    ensures forall k | from <= k < r :: s[k] !in cs
    decreases |s| - from
  {
    if from == |s| then |s| else if s[from] in cs then from else FindAny(s, cs, from + 1)
  }

  lemma {:induction false} FindAnyAppend(a: string, b: string, cs: set<char>, from: nat)
    requires from <= |a|
    ensures FindAny(a, cs, from) < |a| ==> FindAny(a + b, cs, from) == FindAny(a, cs, from)
    ensures FindAny(a, cs, from) == |a| ==> FindAny(a + b, cs, from) == |a| + FindAny(b, cs, 0)
    decreases |a| - from
  {
    if from == |a| {
      FindAnyShift(a, b, cs, 0);
    } else if a[from] !in cs {
      FindAnyAppend(a, b, cs, from + 1);
    }
  }

  lemma {:induction false} FindAnyShift(a: string, b: string, cs: set<char>, k: nat)
    requires k <= |b|
    ensures FindAny(a + b, cs, |a| + k) == |a| + FindAny(b, cs, k)
    decreases |b| - k
  {
    if k < |b| && b[k] !in cs {
      FindAnyShift(a, b, cs, k + 1);
    }
  }

  predicate IsAsciiLetter(c: char) {
    'a' <= c <= 'z' || 'A' <= c <= 'Z'
  }

  /** The characters `urllib.parse` admits in a scheme name. */
  predicate IsSchemeChar(c: char) {
    IsAsciiLetter(c) || Text.IsDigit(c) || c == '+' || c == '-' || c == '.'
  }

  /**
   * The position of the colon ending the scheme, when `urlsplit` accepts
   * one: the first colon, preceded by a letter and then scheme characters.
   */
  function SchemeColon(url: string): (r: Option<nat>)
    ensures r.Some? ==> 0 < r.value < |url| && url[r.value] == ':'
    ensures r.Some? ==> forall k | 0 <= k < r.value :: url[k] != ':' && IsSchemeChar(url[k])
    ensures r.Some? ==> IsAsciiLetter(url[0])
    ensures r.None? ==> forall i | 0 < i < |url| && url[i] == ':' ::
      !IsAsciiLetter(url[0]) || exists k | 0 <= k < i :: !IsSchemeChar(url[k])
  {
    var i := FindAny(url, {':'}, 0);
    if 0 < i < |url| && IsAsciiLetter(url[0]) && forall k | 0 <= k < i :: IsSchemeChar(url[k])
    then Some(i)
    else None
  }

  /** What `urlsplit` goes on to parse once the scheme, if any, is removed. */
  function AfterScheme(url: string): (r: string)
    ensures |r| <= |url| && r == url[|url| - |r|..]
  {
    match SchemeColon(url)
    case Some(i) => url[i + 1..]
    case None => url
  }

  /** `urlsplit` sees an authority exactly when the remainder starts with `//`. */
  predicate HasAuthority(url: string) {
    var rest := AfterScheme(url);
    |rest| >= 2 && rest[..2] == "//"
  }

  /** `urlparse(url).netloc`: the text after `//` up to the first delimiter. */
  function Authority(url: string): (r: string)
    ensures forall k | 0 <= k < |r| :: r[k] !in Delimiters
    ensures !HasAuthority(url) ==> r == ""
    ensures HasAuthority(url) ==> AfterScheme(url)[..2] + r <= AfterScheme(url)
    ensures HasAuthority(url) ==>
      |AfterScheme(url)| == 2 + |r| || AfterScheme(url)[2 + |r|] in Delimiters
  {
    var rest := AfterScheme(url);
    if |rest| >= 2 && rest[..2] == "//" then rest[2..FindAny(rest, Delimiters, 2)] else ""
  }

  /**
   * Whether `urllib.request.Request` finds a URL type: a non-empty prefix
   * free of `/` ending at the first colon. Without one the constructor
   * raises `ValueError`.
   */
  function HasUrlType(url: string): (b: bool)
    ensures b <==> exists i | 0 < i < |url| :: url[i] == ':' && forall k | 0 <= k < i :: url[k] != ':' && url[k] != '/'
  {
    var i := FindAny(url, {':'}, 0);
    0 < i < |url| && forall k | 0 <= k < i :: url[k] != '/'
  }

  lemma SchemeColonAppend(base: string, path: string)
    requires path == [] || path[0] in Delimiters
    ensures SchemeColon(base + path) == SchemeColon(base)
  {
    FindAnyAppend(base, path, {':'}, 0);
    var i := FindAny(base, {':'}, 0);
    var j := FindAny(base + path, {':'}, 0);
    var url := base + path;
    if i < |base| {
      assert j == i;
      assert forall k | 0 <= k < i :: url[k] == base[k];
    } else if j < |url| {
      assert j > |base| && url[|base|] == path[0];
      assert !IsSchemeChar(url[|base|]);
      assert SchemeColon(url) == None;
    }
  }

  lemma AfterSchemeAppend(base: string, path: string)
    requires path == [] || path[0] in Delimiters
    ensures AfterScheme(base + path) == AfterScheme(base) + path
  {
    SchemeColonAppend(base, path);
    match SchemeColon(base)
    case Some(i) =>
      assert (base + path)[i + 1..] == base[i + 1..] + path;
    case None =>
  }

  /**
   * Appending a request path that starts at a delimiter (as an origin-form
   * path `/...` does) leaves the authority of an absolute base URL intact:
   * the `Host` sent upstream is the base URL's authority.
   */
  lemma {:induction false} TargetKeepsAuthority(baseUrl: string, path: string)
    requires HasAuthority(baseUrl)
    requires path == [] || path[0] in Delimiters
    ensures HasAuthority(TargetUrl(baseUrl, path))
    ensures Authority(TargetUrl(baseUrl, path)) == Authority(baseUrl)
  {
    AfterSchemeAppend(baseUrl, path);
    NetlocAppend(AfterScheme(baseUrl), path);
  }

  /** `_splitnetloc(rest, 2)` is unchanged by appending a delimiter-led suffix. */
  lemma NetlocAppend(rest: string, path: string)
    requires |rest| >= 2 && rest[..2] == "//"
    requires path == [] || path[0] in Delimiters
    ensures (rest + path)[..2] == "//"
    ensures (rest + path)[2..FindAny(rest + path, Delimiters, 2)] == rest[2..FindAny(rest, Delimiters, 2)]
  {
    FindAnyAppend(rest, path, Delimiters, 2);
    if FindAny(rest, Delimiters, 2) == |rest| && path != [] {
      assert FindAny(path, Delimiters, 0) == 0;
    }
    assert (rest + path)[..2] == rest[..2];
  }

  /** An origin-form path neither creates nor destroys the base URL's type. */
  lemma {:induction false} TargetKeepsUrlType(baseUrl: string, path: string)
    requires path == [] || path[0] == '/'
    ensures HasUrlType(TargetUrl(baseUrl, path)) == HasUrlType(baseUrl)
  {
    var target := TargetUrl(baseUrl, path);
    FindAnyAppend(baseUrl, path, {':'}, 0);
    var i := FindAny(baseUrl, {':'}, 0);
    var j := FindAny(target, {':'}, 0);
    if i == |baseUrl| && j < |target| {
      assert j > |baseUrl|;
      assert target[|baseUrl|] == '/';
    }
  }
}

=== FILE: wrappers.dfy ===
/** Failure-carrying wrappers shared by the whole model. */
module Wrappers {

  /** A value that may be absent: a missing dictionary key, an unset header. */
  datatype Option<+T> = None | Some(value: T)

  /** The outcome of a step that can fail with an error of type E. */
  datatype Result<+R, +E> = Success(value: R) | Failure(error: E)
}
